=== FILE: README.md ===
# trinket-sync: a Dafny model of the synchronisation policy

This project models the core of a Fabric server mod. The mod keeps a player's
Trinkets equipment the same across several Minecraft servers. The servers share
a MySQL table, which holds the state that counts, and a Redis channel, which
carries changes quickly and on a best-effort basis.

The model covers four parts of the code.

- `TrinketsService` is modelled as a per-player state machine (module
  `Service`, with the properties in `ServiceProps`). It keeps three maps
  keyed by player: `lastAppliedMs`, `lastAppliedHash` and `lastLoadedMs`.
  It also keeps one global `lastAutosaveMs`. Each operation is a pure
  function. It takes the tracking and the player, and returns the new
  tracking, the new player and what happened: an outcome, plus for saves
  the store writes and bus publishes it issues.
- Hex formatting. `sha256Hex` prints each digest byte with `%02x` (module
  `Hex`). The model formats Java's signed bytes explicitly.
- `TrinketsSyncMod` (module `Mod`). This covers the filter the Redis
  subscriber applies to inbound messages. It also covers the mapping from
  join, disconnect and tick events to service calls.
- `TickScheduler` (module `Scheduler`): a list of one-shot tasks counted
  down once per tick. The counter is a Java `int`, so the model makes its
  wrap-around explicit.

Collaborators the code cannot see are parameters:

- wall-clock time is `now`;
- SHA-256, Base64 and the NBT encoder and decoder are the fields of a
  `Codec`, and a `None` result stands for the exception the call throws;
- the store row is an `Option<Row>`;
- "is `REDIS` non-null" and "does `db.save` throw" are booleans.

The owner's state is a `Loadout`, a map from trinket slot to item stack
(module `Trinkets`).

Points of the code's behaviour that the model keeps as written:

- `saveFor` skips any save inside the grace window after a load, whatever
  the player now holds.
- There is no separate saved-hash map and no dedup of saves. A completed
  save records the saved hash as `lastAppliedHash`.
- The join retries are `server.execute` hand-offs (zero, one and two hops),
  not tick offsets. `applySecondPassTicks` and `applyThirdPassTicks` are
  read nowhere.
- `TickScheduler.Task` is a record, so `t.ticks--` does not compile as
  written. The model takes the evident intent: a mutable `int` countdown.
  `TickScheduler.init` is never called from the mod.

## Model

| member | source | states |
|---|---|---|
| Hex.Unsigned | src/main/java/net/lucasdev/trinketssync/TrinketsService.java:42 | `%x` of a `Byte` prints a value below 256 that agrees with the signed byte modulo 2^8 (2^8 is added to negative bytes) |
| Hex.Signed | src/main/java/net/lucasdev/trinketssync/TrinketsService.java:42 | inverse of the unsigned reading: it recovers the signed byte from the printed value |
| Hex.ByteHex | src/main/java/net/lucasdev/trinketssync/TrinketsService.java:42 | `%02x` of one byte gives exactly two lowercase digits: the first reads back as the high nibble of the unsigned byte, the second as the low nibble |
| Hex.ToHex | src/main/java/net/lucasdev/trinketssync/TrinketsService.java:41-43 | the digest string has two characters per byte, all lowercase hex digits; byte i gives its high nibble at 2i and its low nibble at 2i+1 |
| Hex.ParseHex | src/main/java/net/lucasdev/trinketssync/TrinketsService.java:41-43 | a hex string that parses has exactly two digits per byte |
| Hex.HexRoundTrip | src/main/java/net/lucasdev/trinketssync/TrinketsService.java:41-43 | the formatted digest of any byte sequence reads back as exactly that sequence |
| Hex.HexInjective | src/main/java/net/lucasdev/trinketssync/TrinketsService.java:41-43 | two digests format to the same string iff they are the same bytes |
| Hex.Sha256Hex | src/main/java/net/lucasdev/trinketssync/TrinketsService.java:37-45 | the hash is 64 lowercase hex digits that read back as the SHA-256 digest of the data |
| Hex.SameHashIffSameDigest | src/main/java/net/lucasdev/trinketssync/TrinketsService.java:37-45 | comparing hash strings, as the dedup does, is the same as comparing digests |
| Trinkets.ClearAll | src/main/java/net/lucasdev/trinketssync/TrinketsService.java:88-106 | the hard clear keeps every equipped slot and leaves every slot showing an empty stack |
| Trinkets.ReadInto | src/main/java/net/lucasdev/trinketssync/TrinketsService.java:109 | `readFromNbt` sets every slot listed in the tag to the tag's stack and leaves unlisted slots alone |
| Trinkets.Replace | src/main/java/net/lucasdev/trinketssync/TrinketsService.java:88-109 | after clear-then-read, every slot shows exactly what the decoded blob holds for it |
| Trinkets.ReplaceReflectsRemovals | src/main/java/net/lucasdev/trinketssync/TrinketsService.java:88-109 | a stack equipped before the apply but absent from the blob is empty afterwards |
| Trinkets.ReplaceForgetsPrior | src/main/java/net/lucasdev/trinketssync/TrinketsService.java:88-109 | the state after a replace does not depend on the state before it |
| Trinkets.ReplaceIdempotent | src/main/java/net/lucasdev/trinketssync/TrinketsService.java:88-109 | replacing twice with the same blob gives the same state as replacing once |
| Bus.Tagged | src/main/java/net/lucasdev/trinketssync/RedisBus.java:50-57 | a published message carries the player, the blob and the timestamp unchanged, with the origin set to the publisher's instance id |
| Service.Record | src/main/java/net/lucasdev/trinketssync/TrinketsService.java:79-80 | after recording, the player's last-applied timestamp is exactly `updatedAt` and its last hash is `hash`; every other player's timestamp and hash, and the load and autosave clocks, are unchanged |
| Service.ApplyIfNewerAndDifferent | src/main/java/net/lucasdev/trinketssync/TrinketsService.java:69-112 | (1) no component: nothing changes. (2) not newer: nothing changes. (3) same hash under a newer timestamp: nothing changes. (4) otherwise the tracking is recorded before decoding: a blob that fails to decode still advances it and leaves the owner unchanged, and a decoded blob fully replaces the owner's slots |
| Service.ApplyBase64IfNewer | src/main/java/net/lucasdev/trinketssync/TrinketsService.java:114-118 | malformed Base64 throws before anything is read or written; otherwise this is the apply of the decoded bytes under their SHA-256 hex |
| Service.LoadFor | src/main/java/net/lucasdev/trinketssync/TrinketsService.java:47-67 | loading disabled or no row: nothing changes. Otherwise the row is applied, and `lastLoadedMs` is stamped with `now` unless the apply threw, whatever the gate decided |
| Service.SaveFor | src/main/java/net/lucasdev/trinketssync/TrinketsService.java:120-152 | no save when `saveOnQuit` is off, or inside the grace window (clock only, not content), or with no component, or when the store write throws. A completed save writes the Base64 blob, records its hash as `lastAppliedHash`, and publishes once exactly when Redis is enabled and present |
| Service.SaveEach | src/main/java/net/lucasdev/trinketssync/TrinketsService.java:164-168 | a sweep moves no timestamp or clock; a player's recorded hash changes only when one of their saves goes through (line 143); and, each player appearing once, every save that goes through leaves the hash of what it saved. Whether a save goes through is judged on the starting tracking, since a save reads only `lastLoadedMs`, which a sweep keeps |
| Service.FlushAll | src/main/java/net/lucasdev/trinketssync/TrinketsService.java:154-158 | a flush sends exactly the concatenation of each online player's own save, and leaves the tracking as a sweep does: timestamps and clocks unchanged, hashes changed only for players whose save went through, each of those holding the hash of what was saved |
| Service.MaybeAutosave | src/main/java/net/lucasdev/trinketssync/TrinketsService.java:160-169 | sweeps iff `now - lastAutosaveMs >= autosaveSeconds*1000`. A sweep sets `lastAutosaveMs := now`, sends what each player's own save sends, and changes hashes only for players whose save went through, each to the hash of what was saved. Otherwise nothing changes |
| Service.SaveReadsOnlyLoadClock | src/main/java/net/lucasdev/trinketssync/TrinketsService.java:120-126 | what the saves send depends on the tracking only through `lastLoadedMs` |
| Service.SweepIsIndependent | src/main/java/net/lucasdev/trinketssync/TrinketsService.java:164-168 | one player's save, failed or not, does not change what the following players' saves send |
| Service.SweptStep | src/main/java/net/lucasdev/trinketssync/TrinketsService.java:164-168 | a sweep's effect on the tracking is the first player's save followed by the sweep of the rest: the frame and the recorded hashes of the rest carry over to the whole list |
| ServiceProps.ApplyNeverDecreases | src/main/java/net/lucasdev/trinketssync/TrinketsService.java:73-80 | no apply lowers or removes any player's `lastAppliedMs` |
| ServiceProps.ApplyAllNeverDecreases | src/main/java/net/lucasdev/trinketssync/TrinketsService.java:73-80 | over any sequence of applies, `lastAppliedMs` only grows |
| ServiceProps.ReplayIsNoOp | src/main/java/net/lucasdev/trinketssync/TrinketsService.java:73-80 | applying the same bytes and timestamp a second time changes neither tracking nor owner, so the owner is mutated at most once |
| ServiceProps.OutOfOrderUpdates | src/main/java/net/lucasdev/trinketssync/TrinketsService.java:73-80 | updates at 100, 50 and 200: the 50 is stale whatever it holds, and the owner ends with the blob from 200 |
| ServiceProps.SavedContentIsNotReapplied | src/main/java/net/lucasdev/trinketssync/TrinketsService.java:139-143 | after a save, the saved blob coming back under any timestamp (store reload or echo) is stale or a duplicate and changes nothing |
| ServiceProps.LoadOpensGraceWindow | src/main/java/net/lucasdev/trinketssync/TrinketsService.java:122-126 | after a load whose apply did not throw, any save within `skipSaveMsAfterLoad` of it is skipped, whatever the player now holds |
| ServiceProps.RetryAfterAttemptLeavesOwner | src/main/java/net/lucasdev/trinketssync/TrinketsService.java:69-80 | once a load of a row has found the component, a later load of the same row leaves the owner as it finds it |
| ServiceProps.FirstAutosaveSweeps | src/main/java/net/lucasdev/trinketssync/TrinketsService.java:160-163 | `lastAutosaveMs` starts at 0 (line 27), so the first tick sweeps; a tick less than one interval later does not |
| ServiceProps.SaveEachFrame | src/main/java/net/lucasdev/trinketssync/TrinketsService.java:164-168 | a sweep leaves the recorded hash of a player it does not visit unchanged |
| ServiceProps.SweepRecordsEverySave | src/main/java/net/lucasdev/trinketssync/TrinketsService.java:164-168 | in a sweep over distinct players, every save that goes through leaves that player's saved hash recorded, whatever happened to the others |
| Mod.OnMessage | src/main/java/net/lucasdev/trinketssync/TrinketsSyncMod.java:32-39 | a message passing the filter goes through `applyBase64IfNewer`, and an exception there is absorbed. Any other message changes nothing. The set of online players never changes |
| Mod.NullOriginAccepted | src/main/java/net/lucasdev/trinketssync/TrinketsSyncMod.java:35 | a message with no origin for an online player goes through `applyBase64IfNewer`, whatever this process's instance id is |
| Mod.OwnEchoIgnored | src/main/java/net/lucasdev/trinketssync/TrinketsSyncMod.java:35-36 | a message tagged with this process's own instance id never reaches the apply and changes nothing |
| Mod.SaveNeverEchoes | src/main/java/net/lucasdev/trinketssync/TrinketsSyncMod.java:32-39 | every message a save publishes, delivered back to the same process, changes nothing there |
| Mod.OfflineDropped | src/main/java/net/lucasdev/trinketssync/TrinketsSyncMod.java:34-35 | a message for a player not online on this server is dropped without any change |
| Mod.ReplicatesToOtherProcess | src/main/java/net/lucasdev/trinketssync/TrinketsSyncMod.java:32-39 | a save published by process A is applied on process B. If the player is online there with a component and B has applied nothing as new or as identical, the player ends with what A saved |
| Mod.LoadKeepsSettled | src/main/java/net/lucasdev/trinketssync/TrinketsSyncMod.java:50-64 | a load of a row already settled for a player never applies it and keeps it settled |
| Mod.AppliedSettles | src/main/java/net/lucasdev/trinketssync/TrinketsSyncMod.java:50-64 | a load that applies a row leaves that row settled |
| Mod.SettledPassesNeverApply | src/main/java/net/lucasdev/trinketssync/TrinketsSyncMod.java:50-64 | once a row is settled, no number of further passes applies it |
| Mod.PassesApplyAtMostOnce | src/main/java/net/lucasdev/trinketssync/TrinketsSyncMod.java:50-64 | the join's load passes apply the row to the owner at most once, whatever component availability each pass meets |
| Mod.Handle | src/main/java/net/lucasdev/trinketssync/TrinketsSyncMod.java:50-71 | a join issues three loads of the joining player at 0, 1 and 2 `server.execute` hand-offs; a disconnect issues one save; a tick issues the autosave check |
| Mod.EventCalls | src/main/java/net/lucasdev/trinketssync/TrinketsSyncMod.java:50-71 | a join issues exactly three loads, all for the joining player, and no save. A disconnect issues exactly one save and no load. A tick issues only the autosave check |
| Scheduler.Decrement | src/main/java/net/lucasdev/trinketssync/TickScheduler.java:26 | the Java `int` decrement: one less, except that `MIN_VALUE` wraps; it always agrees with `x - 1` modulo 2^32 |
| Scheduler.Schedule | src/main/java/net/lucasdev/trinketssync/TickScheduler.java:17-19 | one task is appended at the end, and the existing tasks are unchanged and in order |
| Scheduler.Step | src/main/java/net/lucasdev/trinketssync/TickScheduler.java:25-28 | a task of another server is untouched; a task of this server is due exactly when its decremented counter is no longer positive, and is otherwise kept with that counter and the same server and action |
| Scheduler.TickRef | src/main/java/net/lucasdev/trinketssync/TickScheduler.java:21-32 | the number of tasks kept plus the number of actions run is at most the length of the list, and equal to it on a completed tick, where none of the actions run threw. A tick that throws stops at the throwing action, which is the last one run. Each task's own fate is proved by `Scheduler.TickReachesTask` and `Scheduler.TickOneTask` |
| Scheduler.Tick | src/main/java/net/lucasdev/trinketssync/TickScheduler.java:21-32 | the iterator loop gives the same list, actions run and exception as the reference tick |
| Scheduler.TickKeepsOtherServers | src/main/java/net/lucasdev/trinketssync/TickScheduler.java:25 | tasks for other servers are untouched and keep their order |
| Scheduler.TickLeavesPending | src/main/java/net/lucasdev/trinketssync/TickScheduler.java:26-28 | after a completed tick, every task left for that server has a counter above 0 |
| Scheduler.TickSplits | src/main/java/net/lucasdev/trinketssync/TickScheduler.java:21-32 | ticking a list equals ticking its two halves in turn, so each task's fate depends on that task alone and the tasks kept stay in order |
| Scheduler.TickReachesTask | src/main/java/net/lucasdev/trinketssync/TickScheduler.java:21-32 | a task the loop reaches, because no earlier action threw, is kept in place with its decremented counter or run and removed, exactly as `Step` says, and the tasks after it are then ticked in turn |
| Scheduler.TickThrowKeepsRest | src/main/java/net/lucasdev/trinketssync/TickScheduler.java:21-32 | once an action throws, every task after it is left unchanged and nothing after it runs |
| Scheduler.TickOneTask | src/main/java/net/lucasdev/trinketssync/TickScheduler.java:25-28 | a single task is either kept with its decremented counter or run once and removed, even when its action throws |
| Scheduler.RunsAtTick | src/main/java/net/lucasdev/trinketssync/TickScheduler.java:21-32 | over `k` ticks that each reach the task (no earlier action of that server threw), a task scheduled with delay `d` is pending with `d - k` ticks left until tick `max(d,1)`, and gone from then on |
| Scheduler.OtherServerNeverRuns | src/main/java/net/lucasdev/trinketssync/TickScheduler.java:25 | no number of ticks of another server counts a task down |
| Scheduler.LeastDelayWraps | src/main/java/net/lucasdev/trinketssync/TickScheduler.java:26 | a task scheduled with `Integer.MIN_VALUE` is not run on its first tick; it is left with `Integer.MAX_VALUE` ticks |

## Left out

- Threads and I/O are left out. This covers the two-thread pool, the `io.execute` and `server.execute` hand-offs, and the interleaving of saves with applies. Each operation runs start to finish in one step.
- Shutdown and lifecycle are left out: `shutdown`, `SERVER_STARTED` and `SERVER_STOPPING`. They are lifecycle wiring around the policy.
- `DatabaseManager` is outside the model. This covers the JDBC pool, the schema and the row lookup. The lookup result is the `row` parameter.
- The source of `db.save` is not shown. A save is a `StoreWrite` effect, and whether it throws is the `storeOk` flag.
- Store timestamps are second-granular (`UNIX_TIMESTAMP(updated_at)*1000`), while publishes use `currentTimeMillis`. A row can therefore carry a smaller timestamp than an earlier message about older content. The model treats every timestamp as an opaque integer.
- The Redis connection, the subscriber thread and the JSON encoding are left out. A publish is a `Publish` effect whose delivery is not modelled; `RedisBus.publish` logs and swallows its own failures.
- SHA-256, Base64 and NBT compression are foreign code. They are fields of `Codec`. `markDirty`, `sendContentUpdates` and all logging are left out too.
- `Config` file loading is I/O and is left out. The fields the service reads are parameters. `applySecondPassTicks`, `applyThirdPassTicks` and `postApplyCleanupRegex` are read nowhere.
- Hex.Sha256Hex: the `catch` that returns `""` when `MessageDigest` cannot provide SHA-256 is not modelled. Every Java platform must provide that algorithm.
- Trinkets.Replace: assumes the reflective pre-clear empties every equipped slot. In the source, a slot whose pair has no `getLeft`/`getFirst`/`getA` accessor is silently left as it is (lines 93-100). If an accessor or `setStack` throws, the source logs (line 105) and stops clearing, and the slots cleared so far stay cleared. Either way `readFromNbt` then runs over a loadout that was not fully cleared. That reflection chain is foreign code.
- Trinkets.ReadInto: `readFromNbt` belongs to the Trinkets API, which is not part of this model. It is taken to set exactly the slots the tag lists.
- Service.SaveFor: both clock reads (the grace check and the publish timestamp) are the single `now`. In the source, the second read happens later on the worker thread.
- Service.SaveEach: the hash each completed save leaves is stated for sweeps in which every player appears once, as the online player list does. With a repeated player, the last completed save of that player wins; the model does not state that case.
- Service.MaybeAutosave: times are unbounded integers. `now - lastAutosaveMs`, `now - lastLoadedMs` and `autosaveSeconds * 1000L` are Java `long`s, which do not overflow for real clock values.
- Scheduler.Tick: the actions it runs are returned in order rather than executed. A task scheduled from inside a running action would make the `LinkedList` iterator throw; that case is not modelled.
- Scheduler.RunsAtTick: counts only ticks on which no earlier action of that server threw. On a tick where an earlier action throws, the loop ends before the task and its counter is not decremented (`Scheduler.TickThrowKeepsRest`), so the task runs later than `max(d,1)`. It also requires a delay other than `Integer.MIN_VALUE`; that one case wraps, as `Scheduler.LeastDelayWraps` shows.
- The tracking maps are never pruned when a player leaves. The model keeps that behaviour.

=== FILE: bus.dfy ===
/** The message carried on the Redis channel (`RedisBus.SyncMessage`) and the
    origin tag `publish` puts on it. The connection, the subscriber thread and
    the JSON encoding are not part of this model. */
module Bus {
  import opened Wrappers
  import opened Trinkets

  /** `originId` is `None` where the JSON carried no origin (Java `null`). */
  datatype SyncMessage = SyncMessage(uuid: PlayerId, base64: string, updatedAt: int, originId: Option<string>)

  /** `publish(uuid, base64, updatedAt)` on the process whose
      `SERVER_INSTANCE_ID` is `instanceId`. */
  function Tagged(uuid: PlayerId, base64: string, updatedAt: int, instanceId: string): (m: SyncMessage)
    ensures m.originId == Some(instanceId)
    ensures m.uuid == uuid && m.base64 == base64 && m.updatedAt == updatedAt
  {
    SyncMessage(uuid, base64, updatedAt, Some(instanceId))
  }
}

=== FILE: hex.dfy ===
/** The hex formatting of `TrinketsService.sha256Hex`: every digest byte is
    printed with `%02x`, two lowercase hex digits, after Java has made the
    signed byte unsigned. SHA-256 itself is a parameter (`digest`). */
module Hex {
  import opened Wrappers

  /** A Java `byte`: signed, two's complement, eight bits. */
  newtype JByte = b: int | -128 <= b < 128

  /** A SHA-256 digest: 32 bytes. */
  type Digest = d: seq<JByte> | |d| == 32 witness seq(32, _ => 0 as JByte)

  /** The value `%x` formats for a `Byte`: a negative byte has 2^8 added. */
  function Unsigned(b: JByte): (u: nat)
    ensures u < 256
    ensures (u - b as int) % 256 == 0
    ensures b >= 0 ==> u == b as int
  {
    if b < 0 then b as int + 256 else b as int
  }

  /** The byte whose unsigned reading is `u`: the inverse of `Unsigned`. */
  function Signed(u: nat): (b: JByte)
    requires u < 256
    ensures Unsigned(b) == u
  {
    if u >= 128 then (u - 256) as JByte else u as JByte
  }

  predicate IsLowerHexDigit(c: char) {
    '0' <= c <= '9' || 'a' <= c <= 'f'
  }

  function HexDigit(n: nat): (c: char)
    requires n < 16
    ensures IsLowerHexDigit(c)
  {
    if n < 10 then ('0' as int + n) as char else ('a' as int + (n - 10)) as char
  }

  /** Reads one lowercase hex digit back; fails on anything else. */
  function DigitValue(c: char): (r: Option<nat>)
    ensures r.Some? <==> IsLowerHexDigit(c)
    ensures r.Some? ==> r.value < 16 && HexDigit(r.value) == c
  {
    if '0' <= c <= '9' then Some(c as int - '0' as int)
    else if 'a' <= c <= 'f' then Some(c as int - 'a' as int + 10)
    else None
  }

  lemma DigitRoundTrip(n: nat)
    requires n < 16
    ensures DigitValue(HexDigit(n)) == Some(n)
  {
  }

  /** `String.format("%02x", b)`: exactly two lowercase digits, high nibble first. */
  function ByteHex(b: JByte): (s: string)
    ensures |s| == 2
    ensures IsLowerHexDigit(s[0]) && IsLowerHexDigit(s[1])
    // The first digit reads back as the high nibble, the second as the low one.
    ensures DigitValue(s[0]) == Some(Unsigned(b) / 16) && DigitValue(s[1]) == Some(Unsigned(b) % 16)
  {
    DigitRoundTrip(Unsigned(b) / 16);
    DigitRoundTrip(Unsigned(b) % 16);
    [HexDigit(Unsigned(b) / 16), HexDigit(Unsigned(b) % 16)]
  }

  /** The string the `StringBuilder` loop produces for a digest. */
  function ToHex(d: seq<JByte>): (s: string)
    ensures |s| == 2 * |d|
    ensures forall i | 0 <= i < |s| :: IsLowerHexDigit(s[i])
    ensures forall i | 0 <= i < |d| :: s[2 * i] == HexDigit(Unsigned(d[i]) / 16)
    ensures forall i | 0 <= i < |d| :: s[2 * i + 1] == HexDigit(Unsigned(d[i]) % 16)
  {
    if |d| == 0 then "" else ByteHex(d[0]) + ToHex(d[1..])
  }

  /** Reads a lowercase hex string back into signed bytes, two digits per byte. */
  function ParseHex(s: string): (r: Option<seq<JByte>>)
    ensures r.Some? ==> |s| == 2 * |r.value|
    decreases |s|
  {
    if |s| == 0 then Some([])
    else if |s| == 1 then None
    else
      match (DigitValue(s[0]), DigitValue(s[1]))
      case (Some(hi), Some(lo)) =>
        (match ParseHex(s[2..])
         case Some(rest) => Some([Signed(hi * 16 + lo)] + rest)
         case None => None)
      case _ => None
  }

  /** Every formatted digest reads back as itself. */
  lemma {:induction false} HexRoundTrip(d: seq<JByte>)
    ensures ParseHex(ToHex(d)) == Some(d)
  {
    if |d| > 0 {
      var s := ToHex(d);
      var u := Unsigned(d[0]);
      assert s[2..] == ToHex(d[1..]);
      DigitRoundTrip(u / 16);
      DigitRoundTrip(u % 16);
      HexRoundTrip(d[1..]);
      assert Signed(u / 16 * 16 + u % 16) == d[0];
      assert [d[0]] + d[1..] == d;
    }
  }

  /** Two digests print the same iff they are the same bytes: comparing hex
      strings, as the service does, is comparing digests. */
  lemma HexInjective(a: seq<JByte>, b: seq<JByte>)
    ensures ToHex(a) == ToHex(b) <==> a == b
  {
    if ToHex(a) == ToHex(b) {
      HexRoundTrip(a);
      HexRoundTrip(b);
    }
  }

  /** `sha256Hex(data)`: 64 lowercase hex digits that read back as the digest. */
  function Sha256Hex(digest: seq<JByte> -> Digest, data: seq<JByte>): (h: string)
    ensures |h| == 64
    ensures forall i | 0 <= i < |h| :: IsLowerHexDigit(h[i])
    ensures ParseHex(h) == Some(digest(data))
  {
    HexRoundTrip(digest(data));
    ToHex(digest(data))
  }

  /** Hashes of two byte arrays compare equal exactly when their digests do. */
  lemma SameHashIffSameDigest(digest: seq<JByte> -> Digest, a: seq<JByte>, b: seq<JByte>)
    ensures Sha256Hex(digest, a) == Sha256Hex(digest, b) <==> digest(a) == digest(b)
  {
    HexInjective(digest(a), digest(b));
  }
}

=== FILE: mod.dfy ===
/** `TrinketsSyncMod`: the filter the Redis subscriber applies to inbound
    messages, and the mapping from server events to service calls. */
module Mod {
  import opened Wrappers
  import opened Hex
  import opened Trinkets
  import opened Bus
  import opened Service

  /** One server process: the service's tracking and the players online. */
  datatype Server = Server(tracking: Tracking, online: map<PlayerId, Player>)

  /** Every online player is filed under its own id. */
  predicate WellFormed(s: Server) {
    forall id | id in s.online :: s.online[id].id == id
  }

  /** The subscriber's filter: the player is online here, and the message
      carries no origin or another process's origin. */
  predicate Accepts(msg: SyncMessage, online: set<PlayerId>, instanceId: string) {
    msg.uuid in online && (msg.originId.None? || msg.originId.value != instanceId)
  }

  /** The subscriber callback, run on the server thread. Whatever the apply
      throws is caught and logged here, so the callback always returns; the
      tracking the apply recorded before throwing stays recorded. */
  function OnMessage(s: Server, msg: SyncMessage, instanceId: string, codec: Codec): (r: Server)
    ensures WellFormed(s) ==> WellFormed(r)
    ensures r.online.Keys == s.online.Keys
    ensures !Accepts(msg, s.online.Keys, instanceId) ==> r == s
    ensures Accepts(msg, s.online.Keys, instanceId) ==>
              var a := ApplyBase64IfNewer(s.tracking, s.online[msg.uuid], msg.base64, msg.updatedAt, codec);
              r.tracking == a.tracking && r.online == s.online[msg.uuid := a.player]
  {
    if !Accepts(msg, s.online.Keys, instanceId) then s
    else
      var a := ApplyBase64IfNewer(s.tracking, s.online[msg.uuid], msg.base64, msg.updatedAt, codec);
      Server(a.tracking, s.online[msg.uuid := a.player])
  }

  /** A message with no origin, for a player online here, goes through
      `applyBase64IfNewer` whatever this process's instance id is. */
  lemma NullOriginAccepted(s: Server, msg: SyncMessage, instanceId: string, codec: Codec)
    requires msg.originId.None? && msg.uuid in s.online
    ensures var a := ApplyBase64IfNewer(s.tracking, s.online[msg.uuid], msg.base64, msg.updatedAt, codec);
            OnMessage(s, msg, instanceId, codec) == Server(a.tracking, s.online[msg.uuid := a.player])
  {
  }

  /** What a process publishes itself never reaches its own apply path. */
  lemma OwnEchoIgnored(s: Server, uuid: PlayerId, base64: string, updatedAt: int, instanceId: string, codec: Codec)
    ensures !Accepts(Tagged(uuid, base64, updatedAt, instanceId), s.online.Keys, instanceId)
    ensures OnMessage(s, Tagged(uuid, base64, updatedAt, instanceId), instanceId, codec) == s
  {
  }

  /** Every message a save publishes, delivered back to the same process,
      changes nothing there. */
  lemma SaveNeverEchoes(cfg: Config, t: Tracking, p: Player, codec: Codec, node: Node, storeOk: bool, now: int,
                        s: Server, i: nat)
    requires var effects := SaveFor(cfg, t, p, codec, node, storeOk, now).effects;
             i < |effects| && effects[i].Publish?
    ensures var m := SaveFor(cfg, t, p, codec, node, storeOk, now).effects[i].msg;
            OnMessage(s, m, node.instanceId, codec) == s
  {
  }

  /** A message for a player who is not online here is dropped without any change. */
  lemma OfflineDropped(s: Server, msg: SyncMessage, instanceId: string, codec: Codec)
    requires msg.uuid !in s.online
    ensures OnMessage(s, msg, instanceId, codec) == s
  {
  }

  /** End to end: process A saves a player's trinkets and publishes them; on
      process B, where the same player is online with a component and nothing
      as new or as identical was applied before, the message is applied and
      the player shows exactly what A saved. */
  lemma ReplicatesToOtherProcess(cfg: Config, tA: Tracking, pA: Player, codec: Codec, nodeA: Node, now: int,
                                 sB: Server, instanceB: string)
    requires SaveFor(cfg, tA, pA, codec, nodeA, true, now).outcome == Saved
    requires cfg.redisEnabled && nodeA.redisConnected && instanceB != nodeA.instanceId
    requires WellFormed(sB) && pA.id in sB.online && sB.online[pA.id].trinkets.Some?
    requires var bytes := codec.writeNbt(pA.trinkets.value);
             && codec.decodeBase64(codec.encodeBase64(bytes)) == Some(bytes)
             && codec.readNbt(bytes).Some?
             && SameContents(codec.readNbt(bytes).value, pA.trinkets.value)
    requires !NotNewer(sB.tracking, pA.id, now)
    requires !SameAsLast(sB.tracking, pA.id, SavedHash(codec, pA.trinkets.value))
    ensures var m := SaveFor(cfg, tA, pA, codec, nodeA, true, now).effects[1].msg;
            var rB := OnMessage(sB, m, instanceB, codec);
            && rB.online[pA.id].trinkets.Some?
            && SameContents(rB.online[pA.id].trinkets.value, pA.trinkets.value)
            && rB.tracking.lastAppliedMs[pA.id] == now
  {
  }

  // ---- Join passes ----

  /** Nothing in `row` can be applied to `id` any more: its Base64 is
      malformed, or the tracking has reached its timestamp or its hash. */
  predicate Settled(t: Tracking, id: PlayerId, row: Row, codec: Codec) {
    match codec.decodeBase64(row.base64)
    case None => true
    case Some(bytes) => NotNewer(t, id, row.updatedAtMs) || SameAsLast(t, id, Sha256Hex(codec.digest, bytes))
  }

  /** The passes of a join, in order, each loading the same row for the
      player as it stands at that pass. */
  function RunPasses(cfg: Config, t: Tracking, passes: seq<Player>, row: Option<Row>, codec: Codec, now: int)
    : (r: seq<LoadOutcome>)
    ensures |r| == |passes|
    decreases |passes|
  {
    if |passes| == 0 then []
    else
      var l := LoadFor(cfg, t, passes[0], row, codec, now);
      [l.outcome] + RunPasses(cfg, l.tracking, passes[1..], row, codec, now)
  }

  function CountApplied(outcomes: seq<LoadOutcome>): nat
    decreases |outcomes|
  {
    if |outcomes| == 0 then 0
    else (if outcomes[0] == Attempted(Applied) then 1 else 0) + CountApplied(outcomes[1..])
  }

  /** A load of a row keeps it settled, and a settled row is never applied. */
  lemma LoadKeepsSettled(cfg: Config, t: Tracking, p: Player, row: Row, codec: Codec, now: int)
    requires Settled(t, p.id, row, codec)
    ensures var l := LoadFor(cfg, t, p, Some(row), codec, now);
            Settled(l.tracking, p.id, row, codec) && l.outcome != Attempted(Applied)
  {
  }

  /** A load that applies the row settles it. */
  lemma AppliedSettles(cfg: Config, t: Tracking, p: Player, row: Row, codec: Codec, now: int)
    requires LoadFor(cfg, t, p, Some(row), codec, now).outcome == Attempted(Applied)
    ensures Settled(LoadFor(cfg, t, p, Some(row), codec, now).tracking, p.id, row, codec)
  {
  }

  lemma {:induction false} SettledPassesNeverApply(cfg: Config, t: Tracking, passes: seq<Player>, id: PlayerId,
                                                   row: Row, codec: Codec, now: int)
    requires forall i | 0 <= i < |passes| :: passes[i].id == id
    requires Settled(t, id, row, codec)
    ensures CountApplied(RunPasses(cfg, t, passes, Some(row), codec, now)) == 0
    decreases |passes|
  {
    if |passes| > 0 {
      var l := LoadFor(cfg, t, passes[0], Some(row), codec, now);
      LoadKeepsSettled(cfg, t, passes[0], row, codec, now);
      SettledPassesNeverApply(cfg, l.tracking, passes[1..], id, row, codec, now);
    }
  }

  /** However many passes a join runs and whatever each finds, the row is
      applied to the owner at most once. */
  lemma {:induction false} PassesApplyAtMostOnce(cfg: Config, t: Tracking, passes: seq<Player>, id: PlayerId,
                                                 row: Option<Row>, codec: Codec, now: int)
    requires forall i | 0 <= i < |passes| :: passes[i].id == id
    ensures CountApplied(RunPasses(cfg, t, passes, row, codec, now)) <= 1
    decreases |passes|
  {
    if |passes| > 0 {
      var l := LoadFor(cfg, t, passes[0], row, codec, now);
      if l.outcome == Attempted(Applied) {
        AppliedSettles(cfg, t, passes[0], row.value, codec, now);
        SettledPassesNeverApply(cfg, l.tracking, passes[1..], id, row.value, codec, now);
      } else {
        PassesApplyAtMostOnce(cfg, l.tracking, passes[1..], id, row, codec, now);
      }
    }
  }

  // ---- Events ----

  datatype Event = Join(player: PlayerId) | Disconnect(player: PlayerId) | StartTick

  /** A call into the service. `hops` counts the `server.execute` hand-offs
      a load waits for before it runs. */
  datatype ServiceCall = Load(player: PlayerId, hops: nat) | Save(player: PlayerId) | Autosave

  /** The handlers registered in `onInitialize`. */
  function Handle(e: Event): (calls: seq<ServiceCall>)
    ensures forall i | 0 <= i < |calls| :: calls[i].Load? ==> calls[i].hops == i
    ensures e.Join? ==> |calls| == 3 && forall i | 0 <= i < 3 :: calls[i] == Load(e.player, i)
    ensures e.Disconnect? ==> calls == [Save(e.player)]
    ensures e.StartTick? ==> calls == [Autosave]
  {
    match e
    case Join(p) => [Load(p, 0), Load(p, 1), Load(p, 2)]
    case Disconnect(p) => [Save(p)]
    case StartTick => [Autosave]
  }

  function CountLoads(calls: seq<ServiceCall>, p: PlayerId): nat
    decreases |calls|
  {
    if |calls| == 0 then 0
    else (if calls[0].Load? && calls[0].player == p then 1 else 0) + CountLoads(calls[1..], p)
  }

  function CountSaves(calls: seq<ServiceCall>, p: PlayerId): nat
    decreases |calls|
  {
    if |calls| == 0 then 0
    else (if calls[0].Save? && calls[0].player == p then 1 else 0) + CountSaves(calls[1..], p)
  }

  /** A join asks for three loads of the joining player, each one hand-off
      later than the one before, and no save; a disconnect asks for one save
      and no load; a tick asks only for the autosave check. */
  lemma EventCalls(p: PlayerId, q: PlayerId)
    ensures CountLoads(Handle(Join(p)), p) == 3 && CountSaves(Handle(Join(p)), q) == 0
    ensures p != q ==> CountLoads(Handle(Join(p)), q) == 0
    ensures CountSaves(Handle(Disconnect(p)), p) == 1 && CountLoads(Handle(Disconnect(p)), q) == 0
    ensures p != q ==> CountSaves(Handle(Disconnect(p)), q) == 0
    ensures Handle(StartTick) == [Autosave]
  {
    var join := Handle(Join(p));
    assert join[1..] == [Load(p, 1), Load(p, 2)] && join[1..][1..] == [Load(p, 2)] && join[1..][1..][1..] == [];
    assert CountLoads(join[1..][1..], p) == 1 && CountLoads(join[1..][1..], q) == (if p == q then 1 else 0);
    assert CountSaves(join[1..][1..], q) == 0;
    assert Handle(Disconnect(p))[1..] == [];
  }
}

=== FILE: scheduler.dfy ===
/** `TickScheduler`: one-shot tasks counted down once per server tick. The
    counter is a Java `int`, so the decrement wraps at `Integer.MIN_VALUE`.
    A task's action is an opaque value; whether running it throws is the
    parameter `throws`. */
module Scheduler {
  import opened Wrappers

  const MinInt32: int := -0x8000_0000
  const MaxInt32: int := 0x7fff_ffff

  newtype Int32 = x: int | -0x8000_0000 <= x < 0x8000_0000

  /** `t.ticks--` on a Java `int`: two's complement, so the least value wraps to the greatest. */
  function Decrement(x: Int32): (r: Int32)
    ensures x as int != MinInt32 ==> r as int == x as int - 1
    ensures (r as int - (x as int - 1)) % 0x1_0000_0000 == 0
  {
    if x as int == MinInt32 then MaxInt32 as Int32 else x - 1
  }

  /** The identity of a `MinecraftServer`; the source compares servers by reference. */
  type ServerId = int

  datatype Task<A> = Task(server: ServerId, ticks: Int32, action: A)

  /** `schedule(server, delayTicks, r)`: the new task goes at the end of the list. */
  function Schedule<A>(tasks: seq<Task<A>>, server: ServerId, delayTicks: Int32, action: A): (r: seq<Task<A>>)
    ensures |r| == |tasks| + 1
    ensures r[..|tasks|] == tasks
    ensures r[|tasks|] == Task(server, delayTicks, action)
  {
    tasks + [Task(server, delayTicks, action)]
  }

  /** What one tick of `server` does to one task: a task of another server is
      left alone; a task of this server is counted down, and is due (`None`)
      when its counter is no longer positive. */
  function Step<A>(t: Task<A>, server: ServerId): (r: Option<Task<A>>)
    ensures t.server != server ==> r == Some(t)
    ensures r.Some? ==> r.value.server == t.server && r.value.action == t.action
    ensures r.Some? && t.server == server ==> r.value.ticks > 0
    // A task of this server is due exactly when its decremented counter is not positive.
    ensures t.server == server ==> (r.None? <==> Decrement(t.ticks) <= 0)
    ensures t.server == server && r.Some? ==> r.value.ticks == Decrement(t.ticks)
  {
    if t.server != server then Some(t)
    else
      var n := Decrement(t.ticks);
      if n <= 0 then None else Some(t.(ticks := n))
  }

  /** The list after a tick, the actions run in list order, and whether one of
      them threw. A throwing action's task is still removed (`finally`), but
      the exception leaves the loop: the tasks after it are not visited. */
  datatype TickResult<A> = TickResult(remaining: seq<Task<A>>, ran: seq<A>, threw: bool)

  /** The tasks that do not belong to `server`, in order. */
  function OtherServers<A>(tasks: seq<Task<A>>, server: ServerId): (r: seq<Task<A>>)
    ensures forall i | 0 <= i < |r| :: r[i].server != server
    decreases |tasks|
  {
    if |tasks| == 0 then []
    else (if tasks[0].server != server then [tasks[0]] else []) + OtherServers(tasks[1..], server)
  }

  /** No task of `server` with a counter that is no longer positive. */
  predicate AllPending<A>(tasks: seq<Task<A>>, server: ServerId) {
    forall i | 0 <= i < |tasks| :: tasks[i].server == server ==> tasks[i].ticks > 0
  }

  /** `tick(server)` over the whole list. */
  function TickRef<A>(tasks: seq<Task<A>>, server: ServerId, throws: A -> bool): (r: TickResult<A>)
    // Every task is either kept or run; a run task is gone.
    ensures |r.remaining| + |r.ran| <= |tasks|
    ensures !r.threw ==> |r.remaining| + |r.ran| == |tasks|
    ensures !r.threw ==> forall i | 0 <= i < |r.ran| :: !throws(r.ran[i])
    ensures r.threw ==> |r.ran| > 0 && throws(r.ran[|r.ran| - 1])
    decreases |tasks|
  {
    if |tasks| == 0 then TickResult([], [], false)
    else
      match Step(tasks[0], server)
      case Some(t') =>
        var rest := TickRef(tasks[1..], server, throws);
        TickResult([t'] + rest.remaining, rest.ran, rest.threw)
      case None =>
        if throws(tasks[0].action) then TickResult(tasks[1..], [tasks[0].action], true)
        else
          var rest := TickRef(tasks[1..], server, throws);
          TickResult(rest.remaining, [tasks[0].action] + rest.ran, rest.threw)
  }

  /** The loop of `tick(server)`, walking the list once with its iterator. */
  method Tick<A(==)>(tasks: seq<Task<A>>, server: ServerId, throws: A -> bool)
    returns (remaining: seq<Task<A>>, ran: seq<A>, threw: bool)
    ensures TickResult(remaining, ran, threw) == TickRef(tasks, server, throws)
  {
    remaining, ran, threw := [], [], false;
    var i := 0;
    while i < |tasks| && !threw
      invariant 0 <= i <= |tasks|
      invariant !threw ==> TickRef(tasks, server, throws) == Resume(remaining, ran, TickRef(tasks[i..], server, throws))
      invariant threw ==> TickRef(tasks, server, throws) == TickResult(remaining, ran, true)
      decreases |tasks| - i
    {
      var t := tasks[i];
      ghost var next := TickRef(tasks[i + 1..], server, throws);
      TickUnfold(tasks[i..], server, throws);
      assert tasks[i..][0] == t && tasks[i..][1..] == tasks[i + 1..];
      if t.server == server {
        var n := Decrement(t.ticks);
        if n <= 0 {
          ran := ran + [t.action];
          if throws(t.action) {
            remaining := remaining + tasks[i + 1..];
            threw := true;
          } else {
            ResumeRun(remaining, ran[..|ran| - 1], t.action, next);
            assert ran[..|ran| - 1] + [t.action] == ran;
          }
        } else {
          ResumeKeep(remaining, ran, t.(ticks := n), next);
          remaining := remaining + [t.(ticks := n)];
        }
      } else {
        ResumeKeep(remaining, ran, t, next);
        remaining := remaining + [t];
      }
      i := i + 1;
    }
    if !threw {
      assert tasks[i..] == [];
    }
  }

  /** The tick of a list whose first tasks have already produced `remaining`
      and `ran`, continuing with the tick `rest` of the others. */
  function Resume<A>(remaining: seq<Task<A>>, ran: seq<A>, rest: TickResult<A>): TickResult<A> {
    TickResult(remaining + rest.remaining, ran + rest.ran, rest.threw)
  }

  lemma ResumeKeep<A>(remaining: seq<Task<A>>, ran: seq<A>, t: Task<A>, next: TickResult<A>)
    ensures Resume(remaining + [t], ran, next) == Resume(remaining, ran, TickResult([t] + next.remaining, next.ran, next.threw))
  {
  }

  lemma ResumeRun<A>(remaining: seq<Task<A>>, ran: seq<A>, a: A, next: TickResult<A>)
    ensures Resume(remaining, ran + [a], next) == Resume(remaining, ran, TickResult(next.remaining, [a] + next.ran, next.threw))
  {
  }

  /** One step of `TickRef`: the head task, then the rest of the list. */
  lemma TickUnfold<A>(tasks: seq<Task<A>>, server: ServerId, throws: A -> bool)
    requires |tasks| > 0
    ensures var rest := TickRef(tasks[1..], server, throws);
            TickRef(tasks, server, throws) ==
              match Step(tasks[0], server)
              case Some(t') => TickResult([t'] + rest.remaining, rest.ran, rest.threw)
              case None =>
                if throws(tasks[0].action) then TickResult(tasks[1..], [tasks[0].action], true)
                else TickResult(rest.remaining, [tasks[0].action] + rest.ran, rest.threw)
  {
  }

  /** Tasks of other servers are untouched by a tick and keep their order. */
  lemma {:induction false} TickKeepsOtherServers<A>(tasks: seq<Task<A>>, server: ServerId, throws: A -> bool)
    ensures OtherServers(TickRef(tasks, server, throws).remaining, server) == OtherServers(tasks, server)
    decreases |tasks|
  {
    if |tasks| > 0 {
      TickUnfold(tasks, server, throws);
      var rest := TickRef(tasks[1..], server, throws);
      TickKeepsOtherServers(tasks[1..], server, throws);
      match Step(tasks[0], server)
      case Some(t') =>
        assert ([t'] + rest.remaining)[1..] == rest.remaining;
      case None =>
    }
  }

  /** After a tick that completed, every task left for this server is still pending. */
  lemma {:induction false} TickLeavesPending<A>(tasks: seq<Task<A>>, server: ServerId, throws: A -> bool)
    requires !TickRef(tasks, server, throws).threw
    ensures AllPending(TickRef(tasks, server, throws).remaining, server)
    decreases |tasks|
  {
    if |tasks| > 0 {
      TickUnfold(tasks, server, throws);
      TickLeavesPending(tasks[1..], server, throws);
    }
  }

  /** A tick over two lists one after the other is the tick over the first,
      then the tick over the second, when nothing in the first throws: each
      task's fate depends on that task alone, and the tasks kept stay in order. */
  lemma {:induction false} TickSplits<A>(a: seq<Task<A>>, b: seq<Task<A>>, server: ServerId, throws: A -> bool)
    requires !TickRef(a, server, throws).threw
    ensures var ra := TickRef(a, server, throws);
            var rb := TickRef(b, server, throws);
            TickRef(a + b, server, throws) == TickResult(ra.remaining + rb.remaining, ra.ran + rb.ran, rb.threw)
    decreases |a|
  {
    if |a| > 0 {
      assert (a + b)[1..] == a[1..] + b;
      assert (a + b)[0] == a[0];
      TickUnfold(a + b, server, throws);
      TickUnfold(a, server, throws);
      TickSplits(a[1..], b, server, throws);
    } else {
      assert a + b == b;
    }
  }

  /** One task on its own: kept as `Step` leaves it, or run when due. */
  lemma TickOneTask<A>(t: Task<A>, server: ServerId, throws: A -> bool)
    ensures var r := TickRef([t], server, throws);
            match Step(t, server)
            case Some(t') => r == TickResult([t'], [], false)
            case None => r == TickResult([], [t.action], throws(t.action))
  {
  }

  /** A task the loop reaches, because no action before it threw, meets
      exactly the fate `Step` gives it: kept in place with its decremented
      counter, or run and removed. (A task behind a throwing action is not
      reached; see `TickThrowKeepsRest`.) */
  lemma TickReachesTask<A>(pre: seq<Task<A>>, t: Task<A>, post: seq<Task<A>>, server: ServerId, throws: A -> bool)
    requires !TickRef(pre, server, throws).threw
    ensures var ra := TickRef(pre, server, throws);
            var rp := TickRef(post, server, throws);
            var r := TickRef(pre + ([t] + post), server, throws);
            match Step(t, server)
            case Some(t') => r == TickResult(ra.remaining + ([t'] + rp.remaining), ra.ran + rp.ran, rp.threw)
            case None =>
              if throws(t.action) then r == TickResult(ra.remaining + post, ra.ran + [t.action], true)
              else r == TickResult(ra.remaining + rp.remaining, ra.ran + ([t.action] + rp.ran), rp.threw)
  {
    var tp := [t] + post;
    TickSplits(pre, tp, server, throws);
    TickUnfold(tp, server, throws);
    assert tp[0] == t && tp[1..] == post;
  }

  /** A tick that throws inside `a` leaves all of `b` untouched and runs nothing from it. */
  lemma {:induction false} TickThrowKeepsRest<A>(a: seq<Task<A>>, b: seq<Task<A>>, server: ServerId, throws: A -> bool)
    requires TickRef(a, server, throws).threw
    ensures var ra := TickRef(a, server, throws);
            TickRef(a + b, server, throws) == TickResult(ra.remaining + b, ra.ran, true)
    decreases |a|
  {
    assert (a + b)[1..] == a[1..] + b;
    assert (a + b)[0] == a[0];
    TickUnfold(a + b, server, throws);
    TickUnfold(a, server, throws);
    match Step(a[0], server)
    case Some(t') =>
      TickThrowKeepsRest(a[1..], b, server, throws);
    case None =>
      if !throws(a[0].action) {
        TickThrowKeepsRest(a[1..], b, server, throws);
      }
  }

  /** A task's state after `k` ticks of its server; `None` once it has run. */
  function Countdown<A>(t: Task<A>, server: ServerId, k: nat): Option<Task<A>>
    decreases k
  {
    if k == 0 then Some(t)
    else match Countdown(t, server, k - 1)
      case None => None
      case Some(t') => Step(t', server)
  }

  function Max(a: int, b: int): int {
    if a >= b then a else b
  }

  /** A task scheduled with delay `d` runs on the `max(d, 1)`-th tick that
      reaches it: it is pending with `d - k` ticks left before that, and gone
      from then on. A tick on which an earlier action of the server throws
      does not reach it (`TickThrowKeepsRest`) and does not count here. The
      one exception is `Integer.MIN_VALUE` (see `LeastDelayWraps`). */
  lemma {:induction false} RunsAtTick<A>(server: ServerId, d: Int32, action: A, k: nat)
    requires d as int != MinInt32
    ensures var c := Countdown(Task(server, d, action), server, k);
            && (c.None? <==> k >= Max(d as int, 1))
            && (c.Some? ==> c.value == Task(server, (d as int - k) as Int32, action))
    decreases k
  {
    if k > 0 {
      RunsAtTick(server, d, action, k - 1);
    }
  }

  /** A task of another server is never counted down by this server's ticks. */
  lemma {:induction false} OtherServerNeverRuns<A>(t: Task<A>, server: ServerId, k: nat)
    requires t.server != server
    ensures Countdown(t, server, k) == Some(t)
    decreases k
  {
    if k > 0 {
      OtherServerNeverRuns(t, server, k - 1);
    }
  }

  /** The wrap at `Integer.MIN_VALUE`: such a task is not run on the first
      tick but is left with `Integer.MAX_VALUE` ticks to go. */
  lemma LeastDelayWraps<A>(server: ServerId, action: A)
    ensures Countdown(Task(server, MinInt32 as Int32, action), server, 1)
            == Some(Task(server, MaxInt32 as Int32, action))
  {
  }
}

=== FILE: service.dfy ===
/** `TrinketsService`: the per-player synchronisation policy as pure state
    transitions. Each operation takes the tracking maps and the player and
    returns the new tracking maps, the new player and what it did; wall-clock
    time is the parameter `now`, and SHA-256, Base64 and the NBT codec are the
    fields of a `Codec`. */
module Service {
  import opened Wrappers
  import opened Hex
  import opened Trinkets
  import opened Bus

  type Bytes = seq<JByte>

  /** The foreign code the service calls. A `None` is the exception the
      call throws on malformed input. */
  datatype Codec = Codec(
    digest: Bytes -> Digest,                 // MessageDigest "SHA-256"
    decodeBase64: string -> Option<Bytes>,   // Base64.getDecoder().decode
    encodeBase64: Bytes -> string,           // Base64.getEncoder().encodeToString
    readNbt: Bytes -> Option<Loadout>,       // NbtIo.readCompressed
    writeNbt: Loadout -> Bytes)              // writeToNbt + NbtIo.writeCompressed

  /** The fields of `Config` the service reads. */
  datatype Config = Config(
    loadOnJoin: bool,
    saveOnQuit: bool,
    autosaveSeconds: int,
    redisEnabled: bool,
    skipSaveMsAfterLoad: int)

  /** This process: its `SERVER_INSTANCE_ID`, and whether `REDIS` is non-null. */
  datatype Node = Node(instanceId: string, redisConnected: bool)

  /** The service's fields: three maps keyed by player and the autosave clock. */
  datatype Tracking = Tracking(
    lastAppliedMs: map<PlayerId, int>,
    lastAppliedHash: map<PlayerId, string>,
    lastLoadedMs: map<PlayerId, int>,
    lastAutosaveMs: int)

  /** A freshly constructed service. */
  const Fresh: Tracking := Tracking(map[], map[], map[], 0)

  /** A row of the `player_trinkets` table as `DatabaseManager.load` returns it. */
  datatype Row = Row(base64: string, updatedAtMs: int)

  // ---- Apply ----

  /** How an apply ended. `BadBase64` and `DecodeFailed` are exceptions
      thrown out of the apply. */
  datatype ApplyOutcome = NoComponent | Stale | Duplicate | BadBase64 | DecodeFailed | Applied {
    predicate Threw() {
      BadBase64? || DecodeFailed?
    }
  }

  datatype ApplyResult = ApplyResult(tracking: Tracking, player: Player, outcome: ApplyOutcome)

  /** The timestamp is not newer than the last one applied for `id`. */
  predicate NotNewer(t: Tracking, id: PlayerId, updatedAt: int) {
    id in t.lastAppliedMs && updatedAt <= t.lastAppliedMs[id]
  }

  /** The hash equals the last one recorded for `id`. */
  predicate SameAsLast(t: Tracking, id: PlayerId, hash: string) {
    id in t.lastAppliedHash && t.lastAppliedHash[id] == hash
  }

  /** The gate of `applyIfNewerAndDifferent`: a component, a newer timestamp, a different hash. */
  predicate PassesGate(t: Tracking, p: Player, updatedAt: int, hash: string) {
    p.trinkets.Some? && !NotNewer(t, p.id, updatedAt) && !SameAsLast(t, p.id, hash)
  }

  /** The tracking an accepted apply leaves behind, whether or not the blob decodes. */
  function Record(t: Tracking, id: PlayerId, updatedAt: int, hash: string): (r: Tracking)
    ensures id in r.lastAppliedMs && r.lastAppliedMs[id] == updatedAt
    ensures NotNewer(r, id, updatedAt) && SameAsLast(r, id, hash)
    ensures r.lastLoadedMs == t.lastLoadedMs && r.lastAutosaveMs == t.lastAutosaveMs
    // Every other player's entries are left as they were.
    ensures forall q | q != id :: (q in r.lastAppliedMs <==> q in t.lastAppliedMs)
    ensures forall q | q != id && q in t.lastAppliedMs :: r.lastAppliedMs[q] == t.lastAppliedMs[q]
    ensures forall q | q != id :: (q in r.lastAppliedHash <==> q in t.lastAppliedHash)
    ensures forall q | q != id && q in t.lastAppliedHash :: r.lastAppliedHash[q] == t.lastAppliedHash[q]
  {
    t.(lastAppliedMs := t.lastAppliedMs[id := updatedAt],
       lastAppliedHash := t.lastAppliedHash[id := hash])
  }

  /** `applyIfNewerAndDifferent(player, base64, bytes, updatedAt, hash)`. */
  function ApplyIfNewerAndDifferent(t: Tracking, p: Player, bytes: Bytes, updatedAt: int, hash: string, codec: Codec)
    : (r: ApplyResult)
    ensures r.player.id == p.id && r.outcome != BadBase64
    // No component: return before any tracking map is read or written.
    ensures r.outcome == NoComponent <==> p.trinkets.None?
    // Stale by timestamp, or a duplicate of the last hash under a newer one.
    ensures r.outcome == Stale <==> p.trinkets.Some? && NotNewer(t, p.id, updatedAt)
    ensures r.outcome == Duplicate <==> p.trinkets.Some? && !NotNewer(t, p.id, updatedAt) && SameAsLast(t, p.id, hash)
    ensures r.outcome in {NoComponent, Stale, Duplicate} ==> r.tracking == t && r.player == p
    // Accepted: the tracking is recorded before the blob is decoded ...
    ensures r.outcome in {DecodeFailed, Applied} <==> PassesGate(t, p, updatedAt, hash)
    ensures r.outcome in {DecodeFailed, Applied} ==> r.tracking == Record(t, p.id, updatedAt, hash)
    // ... so a blob that does not decode still advances it, and leaves the owner alone.
    ensures r.outcome == DecodeFailed <==> PassesGate(t, p, updatedAt, hash) && codec.readNbt(bytes).None?
    ensures r.outcome == DecodeFailed ==> r.player == p
    // A decoded blob fully replaces what the owner held.
    ensures r.outcome == Applied ==>
              && r.player.trinkets.Some?
              && SameContents(r.player.trinkets.value, codec.readNbt(bytes).value)
  {
    match p.trinkets
    case None => ApplyResult(t, p, NoComponent)
    case Some(held) =>
      if NotNewer(t, p.id, updatedAt) then ApplyResult(t, p, Stale)
      else if SameAsLast(t, p.id, hash) then ApplyResult(t, p, Duplicate)
      else
        var t' := Record(t, p.id, updatedAt, hash);
        match codec.readNbt(bytes)
        case None => ApplyResult(t', p, DecodeFailed)
        case Some(tag) => ApplyResult(t', p.(trinkets := Some(Replace(held, tag))), Applied)
  }

  /** `applyBase64IfNewer`: decode the Base64 text, hash the bytes, apply. */
  function ApplyBase64IfNewer(t: Tracking, p: Player, base64: string, updatedAt: int, codec: Codec): (r: ApplyResult)
    ensures r.player.id == p.id
    ensures r.outcome == BadBase64 <==> codec.decodeBase64(base64).None?
    ensures r.outcome == BadBase64 ==> r.tracking == t && r.player == p
    ensures codec.decodeBase64(base64).Some? ==>
              var bytes := codec.decodeBase64(base64).value;
              r == ApplyIfNewerAndDifferent(t, p, bytes, updatedAt, Sha256Hex(codec.digest, bytes), codec)
  {
    match codec.decodeBase64(base64)
    case None => ApplyResult(t, p, BadBase64)
    case Some(bytes) => ApplyIfNewerAndDifferent(t, p, bytes, updatedAt, Sha256Hex(codec.digest, bytes), codec)
  }

  // ---- Load ----

  datatype LoadOutcome = LoadDisabled | NoRow | Attempted(apply: ApplyOutcome)

  datatype LoadResult = LoadResult(tracking: Tracking, player: Player, outcome: LoadOutcome)

  /** `loadFor(player)`, with `row` what the store returned (empty also when
      the lookup failed) and `now` the clock read after the apply. */
  function LoadFor(cfg: Config, t: Tracking, p: Player, row: Option<Row>, codec: Codec, now: int): (r: LoadResult)
    ensures r.player.id == p.id
    ensures r.outcome.Attempted? <==> cfg.loadOnJoin && row.Some?
    ensures !r.outcome.Attempted? ==> r.tracking == t && r.player == p
    ensures r.outcome.Attempted? ==>
              var a := ApplyBase64IfNewer(t, p, row.value.base64, row.value.updatedAtMs, codec);
              && r.outcome.apply == a.outcome
              && r.player == a.player
              && r.tracking.lastAppliedMs == a.tracking.lastAppliedMs
              && r.tracking.lastAppliedHash == a.tracking.lastAppliedHash
              && r.tracking.lastAutosaveMs == t.lastAutosaveMs
    // The load is stamped unless the apply threw, whatever the gate decided.
    ensures r.outcome.Attempted? && !r.outcome.apply.Threw() ==>
              r.tracking.lastLoadedMs == t.lastLoadedMs[p.id := now]
    ensures r.outcome.Attempted? && r.outcome.apply.Threw() ==>
              r.tracking.lastLoadedMs == t.lastLoadedMs
  {
    if !cfg.loadOnJoin then LoadResult(t, p, LoadDisabled)
    else match row
      case None => LoadResult(t, p, NoRow)
      case Some(rw) =>
        var a := ApplyBase64IfNewer(t, p, rw.base64, rw.updatedAtMs, codec);
        if a.outcome.Threw() then LoadResult(a.tracking, a.player, Attempted(a.outcome))
        else
          var stamped := a.tracking.(lastLoadedMs := a.tracking.lastLoadedMs[p.id := now]);
          LoadResult(stamped, a.player, Attempted(a.outcome))
  }

  // ---- Save ----

  /** What a save sends to the outside world, in order. */
  datatype Effect = StoreWrite(id: PlayerId, base64: string) | Publish(msg: SyncMessage)

  datatype SaveOutcome = SaveDisabled | RecentLoad | NothingToSave | StoreFailed | Saved

  datatype SaveResult = SaveResult(tracking: Tracking, effects: seq<Effect>, outcome: SaveOutcome)

  /** Fewer than `skipSaveMsAfterLoad` milliseconds have passed since the last load. */
  predicate InGraceWindow(cfg: Config, t: Tracking, id: PlayerId, now: int) {
    id in t.lastLoadedMs && now - t.lastLoadedMs[id] < cfg.skipSaveMsAfterLoad
  }

  /** The bytes `saveFor` writes for a loadout. */
  function Encoded(codec: Codec, l: Loadout): string {
    codec.encodeBase64(codec.writeNbt(l))
  }

  /** The hash `saveFor` records for a loadout. */
  function SavedHash(codec: Codec, l: Loadout): string {
    Sha256Hex(codec.digest, codec.writeNbt(l))
  }

  /** `saveFor(player)`. `storeOk` is false when `db.save` throws; `now`
      stands for both clock reads. */
  function SaveFor(cfg: Config, t: Tracking, p: Player, codec: Codec, node: Node, storeOk: bool, now: int)
    : (r: SaveResult)
    ensures r.outcome == SaveDisabled <==> !cfg.saveOnQuit
    // The grace window looks only at the clock, never at the content.
    ensures r.outcome == RecentLoad <==> cfg.saveOnQuit && InGraceWindow(cfg, t, p.id, now)
    ensures r.outcome == NothingToSave <==>
              cfg.saveOnQuit && !InGraceWindow(cfg, t, p.id, now) && p.trinkets.None?
    ensures r.outcome == StoreFailed <==>
              cfg.saveOnQuit && !InGraceWindow(cfg, t, p.id, now) && p.trinkets.Some? && !storeOk
    ensures r.outcome != Saved ==> r.tracking == t && r.effects == []
    // A completed save writes, records the saved hash, and publishes when Redis is on.
    ensures r.outcome == Saved ==>
              var enc := Encoded(codec, p.trinkets.value);
              && r.tracking == t.(lastAppliedHash := t.lastAppliedHash[p.id := SavedHash(codec, p.trinkets.value)])
              && |r.effects| >= 1 && r.effects[0] == StoreWrite(p.id, enc)
              && (|r.effects| == 2 <==> cfg.redisEnabled && node.redisConnected)
              && |r.effects| <= 2
              && (|r.effects| == 2 ==> r.effects[1] == Publish(Tagged(p.id, enc, now, node.instanceId)))
  {
    if !cfg.saveOnQuit then SaveResult(t, [], SaveDisabled)
    else if InGraceWindow(cfg, t, p.id, now) then SaveResult(t, [], RecentLoad)
    else match p.trinkets
      case None => SaveResult(t, [], NothingToSave)
      case Some(l) =>
        if !storeOk then SaveResult(t, [], StoreFailed)
        else
          var enc := Encoded(codec, l);
          var t' := t.(lastAppliedHash := t.lastAppliedHash[p.id := SavedHash(codec, l)]);
          var published := if cfg.redisEnabled && node.redisConnected
                           then [Publish(Tagged(p.id, enc, now, node.instanceId))] else [];
          SaveResult(t', [StoreWrite(p.id, enc)] + published, Saved)
  }

  // ---- Sweeps ----

  datatype SweepResult = SweepResult(tracking: Tracking, effects: seq<Effect>)

  /** The save of `p` in a sweep goes through; `failing` are the players whose
      store write throws. */
  predicate Completes(cfg: Config, t: Tracking, p: Player, codec: Codec, node: Node, failing: set<PlayerId>, now: int) {
    SaveFor(cfg, t, p, codec, node, p.id !in failing, now).outcome == Saved
  }

  /** The players a sweep visits. */
  predicate Mentions(players: seq<Player>, q: PlayerId) {
    exists i :: 0 <= i < |players| && players[i].id == q
  }

  /** Some save of `q` in the sweep goes through. */
  predicate SavesAny(cfg: Config, t: Tracking, players: seq<Player>, codec: Codec, node: Node,
                     failing: set<PlayerId>, now: int, q: PlayerId) {
    exists i :: 0 <= i < |players| && players[i].id == q && Completes(cfg, t, players[i], codec, node, failing, now)
  }

  /** Each online player appears once. */
  predicate DistinctIds(players: seq<Player>) {
    forall j, k | 0 <= j < k < |players| :: players[j].id != players[k].id
  }

  /** A player's recorded hash changes only when one of their saves in the
      sweep goes through. */
  ghost predicate KeepsUnsavedHashes(cfg: Config, t: Tracking, players: seq<Player>, codec: Codec, node: Node,
                                     failing: set<PlayerId>, now: int, r: Tracking) {
    forall q | !SavesAny(cfg, t, players, codec, node, failing, now, q) ::
      && (q in r.lastAppliedHash <==> q in t.lastAppliedHash)
      && (q in t.lastAppliedHash ==> r.lastAppliedHash[q] == t.lastAppliedHash[q])
  }

  /** Each player appearing once, every save that goes through leaves the
      hash of what it saved. */
  ghost predicate RecordsSavedHashes(cfg: Config, t: Tracking, players: seq<Player>, codec: Codec, node: Node,
                                     failing: set<PlayerId>, now: int, r: Tracking) {
    DistinctIds(players) ==>
      forall i | 0 <= i < |players| && Completes(cfg, t, players[i], codec, node, failing, now) ::
        players[i].id in r.lastAppliedHash
        && r.lastAppliedHash[players[i].id] == SavedHash(codec, players[i].trinkets.value)
  }

  /** The tracking `r` a sweep over `players` may leave behind from `t`: no
      timestamp or clock moves, and the hashes change exactly as the saves
      that go through record them. */
  ghost predicate SweptFrom(cfg: Config, t: Tracking, players: seq<Player>, codec: Codec, node: Node,
                            failing: set<PlayerId>, now: int, r: Tracking) {
    && r.lastAppliedMs == t.lastAppliedMs
    && r.lastLoadedMs == t.lastLoadedMs
    && r.lastAutosaveMs == t.lastAutosaveMs
    && KeepsUnsavedHashes(cfg, t, players, codec, node, failing, now, r)
    && RecordsSavedHashes(cfg, t, players, codec, node, failing, now, r)
  }

  /** Whether a save goes through depends on the tracking only through `lastLoadedMs`. */
  lemma CompletesReadsOnlyLoadClock(cfg: Config, t1: Tracking, t2: Tracking, codec: Codec, node: Node,
                                    failing: set<PlayerId>, now: int)
    requires t1.lastLoadedMs == t2.lastLoadedMs
    ensures forall p :: Completes(cfg, t1, p, codec, node, failing, now) == Completes(cfg, t2, p, codec, node, failing, now)
  {
    forall p
      ensures Completes(cfg, t1, p, codec, node, failing, now) == Completes(cfg, t2, p, codec, node, failing, now)
    {
      assert InGraceWindow(cfg, t1, p.id, now) == InGraceWindow(cfg, t2, p.id, now);
    }
  }

  /** The frame of a sweep carries over from the rest of the list to the whole. */
  lemma KeepsUnsavedHashesStep(cfg: Config, t: Tracking, players: seq<Player>, codec: Codec, node: Node,
                               failing: set<PlayerId>, now: int, r: Tracking)
    requires |players| > 0
    requires var s := SaveFor(cfg, t, players[0], codec, node, players[0].id !in failing, now);
             KeepsUnsavedHashes(cfg, s.tracking, players[1..], codec, node, failing, now, r)
    ensures KeepsUnsavedHashes(cfg, t, players, codec, node, failing, now, r)
  {
    var s := SaveFor(cfg, t, players[0], codec, node, players[0].id !in failing, now);
    CompletesReadsOnlyLoadClock(cfg, s.tracking, t, codec, node, failing, now);
    forall q | !SavesAny(cfg, t, players, codec, node, failing, now, q)
      ensures && (q in r.lastAppliedHash <==> q in t.lastAppliedHash)
              && (q in t.lastAppliedHash ==> r.lastAppliedHash[q] == t.lastAppliedHash[q])
    {
      if players[0].id == q {
        assert !Completes(cfg, t, players[0], codec, node, failing, now);
      }
    }
  }

  /** The recorded hashes of a sweep carry over from the rest of the list to the whole. */
  lemma RecordsSavedHashesStep(cfg: Config, t: Tracking, players: seq<Player>, codec: Codec, node: Node,
                               failing: set<PlayerId>, now: int, r: Tracking)
    requires |players| > 0
    requires var s := SaveFor(cfg, t, players[0], codec, node, players[0].id !in failing, now);
             && KeepsUnsavedHashes(cfg, s.tracking, players[1..], codec, node, failing, now, r)
             && RecordsSavedHashes(cfg, s.tracking, players[1..], codec, node, failing, now, r)
    ensures RecordsSavedHashes(cfg, t, players, codec, node, failing, now, r)
  {
    var s := SaveFor(cfg, t, players[0], codec, node, players[0].id !in failing, now);
    var rest := players[1..];
    CompletesReadsOnlyLoadClock(cfg, s.tracking, t, codec, node, failing, now);
    if DistinctIds(players) {
      assert DistinctIds(rest) by {
        forall j, k | 0 <= j < k < |rest| ensures rest[j].id != rest[k].id {
          assert rest[j] == players[j + 1] && rest[k] == players[k + 1];
        }
      }
      forall i | 0 <= i < |players| && Completes(cfg, t, players[i], codec, node, failing, now)
        ensures players[i].id in r.lastAppliedHash
        ensures r.lastAppliedHash[players[i].id] == SavedHash(codec, players[i].trinkets.value)
      {
        if i > 0 {
          assert rest[i - 1] == players[i];
        }
      }
    }
  }

  /** One step of a sweep: the first player's save, then the sweep of the rest. */
  lemma SweptStep(cfg: Config, t: Tracking, players: seq<Player>, codec: Codec, node: Node,
                  failing: set<PlayerId>, now: int, r: Tracking)
    requires |players| > 0
    requires var s := SaveFor(cfg, t, players[0], codec, node, players[0].id !in failing, now);
             SweptFrom(cfg, s.tracking, players[1..], codec, node, failing, now, r)
    ensures SweptFrom(cfg, t, players, codec, node, failing, now, r)
  {
    KeepsUnsavedHashesStep(cfg, t, players, codec, node, failing, now, r);
    RecordsSavedHashesStep(cfg, t, players, codec, node, failing, now, r);
  }

  /** The loop of `flushAll` and `maybeAutosave`: `saveFor` for each player in
      list order. */
  function SaveEach(cfg: Config, t: Tracking, players: seq<Player>, codec: Codec, node: Node,
                    failing: set<PlayerId>, now: int): (r: SweepResult)
    ensures SweptFrom(cfg, t, players, codec, node, failing, now, r.tracking)
    decreases |players|
  {
    if |players| == 0 then SweepResult(t, [])
    else
      var s := SaveFor(cfg, t, players[0], codec, node, players[0].id !in failing, now);
      var rest := SaveEach(cfg, s.tracking, players[1..], codec, node, failing, now);
      SweptStep(cfg, t, players, codec, node, failing, now, rest.tracking);
      SweepResult(rest.tracking, s.effects + rest.effects)
  }

  /** `flushAll(server)`: one save per online player. */
  function FlushAll(cfg: Config, t: Tracking, players: seq<Player>, codec: Codec, node: Node,
                    failing: set<PlayerId>, now: int): (r: SweepResult)
    ensures r.effects == EachSave(cfg, t, players, codec, node, failing, now)
    ensures SweptFrom(cfg, t, players, codec, node, failing, now, r.tracking)
  {
    SweepIsIndependent(cfg, t, players, codec, node, failing, now);
    SaveEach(cfg, t, players, codec, node, failing, now)
  }

  datatype AutosaveResult = AutosaveResult(tracking: Tracking, effects: seq<Effect>, swept: bool)

  /** The autosave interval has elapsed since the last sweep. */
  predicate AutosaveDue(cfg: Config, t: Tracking, now: int) {
    now - t.lastAutosaveMs >= cfg.autosaveSeconds * 1000
  }

  /** `maybeAutosave(server)`: sweep only when the interval has elapsed,
      and restart the interval at `now`. */
  function MaybeAutosave(cfg: Config, t: Tracking, players: seq<Player>, codec: Codec, node: Node,
                         failing: set<PlayerId>, now: int): (r: AutosaveResult)
    ensures r.swept <==> AutosaveDue(cfg, t, now)
    ensures !r.swept ==> r.tracking == t && r.effects == []
    ensures r.swept ==> r.tracking.lastAutosaveMs == now
    ensures r.swept ==> r.effects == EachSave(cfg, t, players, codec, node, failing, now)
    ensures r.swept ==> SweptFrom(cfg, t.(lastAutosaveMs := now), players, codec, node, failing, now, r.tracking)
    ensures r.tracking.lastAppliedMs == t.lastAppliedMs && r.tracking.lastLoadedMs == t.lastLoadedMs
  {
    if !AutosaveDue(cfg, t, now) then AutosaveResult(t, [], false)
    else
      var t' := t.(lastAutosaveMs := now);
      var s := SaveEach(cfg, t', players, codec, node, failing, now);
      SweepIsIndependent(cfg, t', players, codec, node, failing, now);
      SaveReadsOnlyLoadClock(cfg, t', t, players, codec, node, failing, now);
      AutosaveResult(s.tracking, s.effects, true)
  }

  /** Reference for a sweep: each player saved against the tracking as it was
      before the sweep, their effects concatenated. */
  function EachSave(cfg: Config, t: Tracking, players: seq<Player>, codec: Codec, node: Node,
                    failing: set<PlayerId>, now: int): seq<Effect>
    decreases |players|
  {
    if |players| == 0 then []
    else SaveFor(cfg, t, players[0], codec, node, players[0].id !in failing, now).effects
         + EachSave(cfg, t, players[1..], codec, node, failing, now)
  }

  /** What `saveFor` sends depends on the tracking only through `lastLoadedMs`. */
  lemma SaveReadsOnlyLoadClock(cfg: Config, t1: Tracking, t2: Tracking, players: seq<Player>, codec: Codec,
                               node: Node, failing: set<PlayerId>, now: int)
    requires t1.lastLoadedMs == t2.lastLoadedMs
    ensures EachSave(cfg, t1, players, codec, node, failing, now) == EachSave(cfg, t2, players, codec, node, failing, now)
    decreases |players|
  {
    if |players| > 0 {
      SaveReadsOnlyLoadClock(cfg, t1, t2, players[1..], codec, node, failing, now);
    }
  }

  /** One player's save does not change what the others' saves do: a sweep
      sends exactly what saving each player on its own would send, and a
      player whose write fails does not stop the ones after it. */
  lemma {:induction false} SweepIsIndependent(cfg: Config, t: Tracking, players: seq<Player>, codec: Codec,
                                              node: Node, failing: set<PlayerId>, now: int)
    ensures SaveEach(cfg, t, players, codec, node, failing, now).effects
            == EachSave(cfg, t, players, codec, node, failing, now)
    decreases |players|
  {
    if |players| > 0 {
      var s := SaveFor(cfg, t, players[0], codec, node, players[0].id !in failing, now);
      SweepIsIndependent(cfg, s.tracking, players[1..], codec, node, failing, now);
      SaveReadsOnlyLoadClock(cfg, s.tracking, t, players[1..], codec, node, failing, now);
    }
  }
}

=== FILE: service_props.dfy ===
/** Properties of `TrinketsService` that relate several calls: replay,
    monotonic timestamps, the echo of a save, the grace window a load opens,
    the join retries, and the sweep over all players. */
module ServiceProps {
  import opened Wrappers
  import opened Hex
  import opened Trinkets
  import opened Service

  /** An incoming blob with its timestamp. */
  datatype Update = Update(bytes: Bytes, updatedAt: int)

  datatype History = History(tracking: Tracking, player: Player)

  /** Applying a series of blobs to one player, hashing each as the service does. */
  function ApplyAll(t: Tracking, p: Player, us: seq<Update>, codec: Codec): (r: History)
    ensures r.player.id == p.id
    decreases |us|
  {
    if |us| == 0 then History(t, p)
    else
      var a := ApplyIfNewerAndDifferent(t, p, us[0].bytes, us[0].updatedAt,
                                        Sha256Hex(codec.digest, us[0].bytes), codec);
      ApplyAll(a.tracking, a.player, us[1..], codec)
  }

  /** No apply moves a player's last-applied timestamp backwards, and none
      forgets a player it has seen. */
  lemma ApplyNeverDecreases(t: Tracking, p: Player, bytes: Bytes, updatedAt: int, hash: string, codec: Codec)
    ensures var r := ApplyIfNewerAndDifferent(t, p, bytes, updatedAt, hash, codec);
            forall q | q in t.lastAppliedMs :: q in r.tracking.lastAppliedMs && r.tracking.lastAppliedMs[q] >= t.lastAppliedMs[q]
  {
  }

  /** Over any series of applies the last-applied timestamps only grow. */
  lemma {:induction false} ApplyAllNeverDecreases(t: Tracking, p: Player, us: seq<Update>, codec: Codec)
    ensures var r := ApplyAll(t, p, us, codec);
            forall q | q in t.lastAppliedMs :: q in r.tracking.lastAppliedMs && r.tracking.lastAppliedMs[q] >= t.lastAppliedMs[q]
    decreases |us|
  {
    if |us| > 0 {
      var hash := Sha256Hex(codec.digest, us[0].bytes);
      var a := ApplyIfNewerAndDifferent(t, p, us[0].bytes, us[0].updatedAt, hash, codec);
      ApplyNeverDecreases(t, p, us[0].bytes, us[0].updatedAt, hash, codec);
      ApplyAllNeverDecreases(a.tracking, a.player, us[1..], codec);
    }
  }

  /** Replaying the same blob under the same timestamp changes nothing the
      second time: the owner is mutated at most once. */
  lemma ReplayIsNoOp(t: Tracking, p: Player, bytes: Bytes, updatedAt: int, hash: string, codec: Codec)
    ensures var r1 := ApplyIfNewerAndDifferent(t, p, bytes, updatedAt, hash, codec);
            var r2 := ApplyIfNewerAndDifferent(r1.tracking, r1.player, bytes, updatedAt, hash, codec);
            r2.tracking == r1.tracking && r2.player == r1.player && r2.outcome != Applied
  {
  }

  /** Updates stamped 100, 50 and 200 arriving in that order: the 50 is stale
      whatever it holds, and the owner ends with the blob stamped 200. */
  lemma OutOfOrderUpdates(p: Player, b1: Bytes, b2: Bytes, b3: Bytes, codec: Codec)
    requires p.trinkets.Some?
    requires codec.digest(b1) != codec.digest(b3)
    requires codec.readNbt(b3).Some?
    ensures var r1 := ApplyIfNewerAndDifferent(Fresh, p, b1, 100, Sha256Hex(codec.digest, b1), codec);
            var r2 := ApplyIfNewerAndDifferent(r1.tracking, r1.player, b2, 50, Sha256Hex(codec.digest, b2), codec);
            var r3 := ApplyIfNewerAndDifferent(r2.tracking, r2.player, b3, 200, Sha256Hex(codec.digest, b3), codec);
            && r2.outcome == Stale
            && r3.outcome == Applied
            && r3.tracking.lastAppliedMs[p.id] == 200
            && SameContents(r3.player.trinkets.value, codec.readNbt(b3).value)
  {
    SameHashIffSameDigest(codec.digest, b1, b3);
  }

  /** After a save, the store row or bus message carrying the saved bytes is
      not applied again: it is either stale or a duplicate of the recorded
      hash, and neither the owner nor the tracking changes. */
  lemma SavedContentIsNotReapplied(cfg: Config, t: Tracking, p: Player, codec: Codec, node: Node, now: int,
                                   p2: Player, updatedAt: int)
    requires SaveFor(cfg, t, p, codec, node, true, now).outcome == Saved
    requires p2.id == p.id
    requires var bytes := codec.writeNbt(p.trinkets.value);
             codec.decodeBase64(codec.encodeBase64(bytes)) == Some(bytes)
    ensures var s := SaveFor(cfg, t, p, codec, node, true, now);
            var a := ApplyBase64IfNewer(s.tracking, p2, Encoded(codec, p.trinkets.value), updatedAt, codec);
            && a.outcome in {NoComponent, Stale, Duplicate}
            && a.tracking == s.tracking && a.player == p2
  {
  }

  /** A load whose apply did not throw opens the grace window: a save within
      `skipSaveMsAfterLoad` of it is skipped whatever the player now holds. */
  lemma LoadOpensGraceWindow(cfg: Config, t: Tracking, p: Player, row: Option<Row>, codec: Codec, loadedAt: int,
                             p2: Player, node: Node, storeOk: bool, now: int)
    requires cfg.saveOnQuit
    requires LoadFor(cfg, t, p, row, codec, loadedAt).outcome.Attempted?
    requires !LoadFor(cfg, t, p, row, codec, loadedAt).outcome.apply.Threw()
    requires p2.id == p.id && now - loadedAt < cfg.skipSaveMsAfterLoad
    ensures var l := LoadFor(cfg, t, p, row, codec, loadedAt);
            var s := SaveFor(cfg, l.tracking, p2, codec, node, storeOk, now);
            s.outcome == RecentLoad && s.effects == [] && s.tracking == l.tracking
  {
  }

  /** Once a join pass has found the component and reached the gate, a later
      pass with the same row leaves the owner as it finds it: the retries are
      cheap no-ops. */
  lemma RetryAfterAttemptLeavesOwner(cfg: Config, t: Tracking, p: Player, row: Option<Row>, codec: Codec,
                                     now1: int, p2: Player, now2: int)
    requires p2.id == p.id
    requires LoadFor(cfg, t, p, row, codec, now1).outcome.Attempted?
    requires LoadFor(cfg, t, p, row, codec, now1).outcome.apply != NoComponent
    ensures var l1 := LoadFor(cfg, t, p, row, codec, now1);
            var l2 := LoadFor(cfg, l1.tracking, p2, row, codec, now2);
            l2.player == p2 && l2.outcome.apply != Applied
  {
  }

  /** A fresh service starts its autosave clock at 0, so the first tick at a
      real wall-clock time sweeps, and the next sweep waits a full interval. */
  lemma FirstAutosaveSweeps(cfg: Config, players: seq<Player>, codec: Codec, node: Node, failing: set<PlayerId>,
                            now: int, later: int)
    requires now >= cfg.autosaveSeconds * 1000
    requires later - now < cfg.autosaveSeconds * 1000
    ensures var first := MaybeAutosave(cfg, Fresh, players, codec, node, failing, now);
            && first.swept
            && !MaybeAutosave(cfg, first.tracking, players, codec, node, failing, later).swept
  {
  }

  /** A sweep only records hashes for the players it visits. */
  lemma {:induction false} SaveEachFrame(cfg: Config, t: Tracking, players: seq<Player>, codec: Codec, node: Node,
                                         failing: set<PlayerId>, now: int, q: PlayerId)
    requires !Mentions(players, q)
    ensures var r := SaveEach(cfg, t, players, codec, node, failing, now).tracking;
            (q in r.lastAppliedHash <==> q in t.lastAppliedHash)
            && (q in t.lastAppliedHash ==> r.lastAppliedHash[q] == t.lastAppliedHash[q])
  {
  }

  /** Every player of a sweep whose save goes through ends with the hash of
      what was saved for them, whatever happened to the players around them. */
  lemma {:induction false} SweepRecordsEverySave(cfg: Config, t: Tracking, players: seq<Player>, codec: Codec,
                                                 node: Node, failing: set<PlayerId>, now: int, i: nat)
    requires i < |players|
    requires DistinctIds(players)
    requires SaveFor(cfg, t, players[i], codec, node, players[i].id !in failing, now).outcome == Saved
    ensures var r := SaveEach(cfg, t, players, codec, node, failing, now).tracking;
            && players[i].id in r.lastAppliedHash
            && r.lastAppliedHash[players[i].id] == SavedHash(codec, players[i].trinkets.value)
  {
  }
}

=== FILE: trinkets.dfy ===
/** The owner side of the synchronisation: a player and the trinket slots of
    their `TrinketComponent`, and the hard clear followed by `readFromNbt`
    that `applyIfNewerAndDifferent` performs. */
module Trinkets {
  import opened Wrappers

  /** The string form of a player's UUID. */
  type PlayerId = string

  /** A `SlotReference`: a slot group, a slot in it and an index in the slot's inventory. */
  datatype SlotRef = SlotRef(group: string, slot: string, index: nat)

  datatype ItemStack = Empty | Stack(item: string, count: nat)

  /** The stacks a component holds, by slot; a slot not in the map shows `Empty`. */
  type Loadout = map<SlotRef, ItemStack>

  /** An online player; `trinkets` is `None` when no `TrinketComponent` is present. */
  datatype Player = Player(id: PlayerId, trinkets: Option<Loadout>)

  /** What slot `s` shows. */
  function Visible(l: Loadout, s: SlotRef): ItemStack {
    if s in l then l[s] else Empty
  }

  /** Two loadouts a player cannot tell apart: every slot shows the same stack. */
  ghost predicate SameContents(a: Loadout, b: Loadout) {
    forall s :: Visible(a, s) == Visible(b, s)
  }

  /** The hard clear: every equipped slot is set to `ItemStack.EMPTY`. */
  function ClearAll(l: Loadout): (r: Loadout)
    ensures r.Keys == l.Keys
    ensures forall s :: Visible(r, s) == Empty
  {
    map s | s in l :: Empty
  }

  /** `readFromNbt`: every slot the decoded tag lists takes the tag's stack;
      other slots keep what they hold. */
  function ReadInto(l: Loadout, tag: Loadout): (r: Loadout)
    ensures r.Keys == l.Keys + tag.Keys
    ensures forall s | s in tag :: r[s] == tag[s]
    ensures forall s | s in l && s !in tag :: r[s] == l[s]
  {
    l + tag
  }

  /** Clear, then read: the full replace of the owner's state by a decoded blob. */
  function Replace(l: Loadout, tag: Loadout): (r: Loadout)
    ensures forall s :: Visible(r, s) == Visible(tag, s)
    ensures r.Keys == l.Keys + tag.Keys
  {
    ReadInto(ClearAll(l), tag)
  }

  /** A stack equipped before the replace but absent from the blob is gone afterwards. */
  lemma ReplaceReflectsRemovals(l: Loadout, tag: Loadout, s: SlotRef)
    requires s in l && s !in tag
    ensures Replace(l, tag)[s] == Empty
  {
  }

  /** The result of a replace does not depend on what the owner held before. */
  lemma ReplaceForgetsPrior(l1: Loadout, l2: Loadout, tag: Loadout)
    ensures SameContents(Replace(l1, tag), Replace(l2, tag))
  {
  }

  /** Replacing twice with the same blob is replacing once. */
  lemma ReplaceIdempotent(l: Loadout, tag: Loadout)
    ensures Replace(Replace(l, tag), tag) == Replace(l, tag)
  {
  }
}

=== FILE: wrappers.dfy ===
/** The `Option` used across the model for Java's `null`, `Optional.empty()`
    and operations that throw. */
module Wrappers {

  datatype Option<+T> = None | Some(value: T)
}
